=== FILE: README.md ===
# ssh2ec2 decision pipeline, modelled in Dafny

ssh2ec2 turns command-line filters into an EC2 `describe-instances` query,
picks one host name per matching reservation, keeps all of them or one, and
runs `ssh` against each. This project models the pure part of that program,
from the parsed arguments to the list of `ssh` command strings:

- `Filters` (`filters.dfy`) models `get_filters`. The parsed arguments become
  the ordered filter list. The list opens with the `instance-state-name` =
  `running` filter. Then come the `--tag`, `--has-tag-key` and
  `--has-tag-value` filters in argument order, and last at most one filter
  per single-valued flag, in a fixed table order.
- `Config` (`config.dfy`) models `get_config_value`. A key is read from
  `profile <name>` (or `default` when no profile is named), then from
  `default`, then the built-in default. A non-empty `--ssh-user` or
  `--ssh-args` overrides the file.
- `Dispatch` (`dispatch.dfy`) models the body of `main` after the query.
  It builds one host name per reservation, then keeps all of them or the one
  at the index `pick`, then builds one `ssh` command string per kept host.
  `Plan` chains the whole pipeline.
- `Strings` (`strings.dfy`) models `str.split` with a one-character
  separator and `str.join`. `Cli` (`cli.dfy`) is the parsed command line.
  `Errors` (`errors.dfy`) holds `Result` and the error kinds.

Conventions:
- The empty string stands for an option that was not given, because the
  program only tests options for truthiness.
- The parsed `~/.aws/config` is a `map<string, map<string, string>>`.
- The API response is a sequence of reservations. Each reservation is a
  sequence of instances, and each instance is a map from attribute name to
  value.
- Each crash of the program is an `Err`:
  - a `--tag` that does not unpack (`MalformedTag`);
  - a missing config section (`NoSuchSection`);
  - zero reservations (`NoMatchingInstances`);
  - a reservation without instances (`EmptyReservation`);
  - an instance without the `key_to_use` attribute (`MissingHostKey`).

The model follows the code as written, including where it is surprising:
- A `--tag` argument is split by `split('=')` with no limit and then unpacked
  into two names. So it must contain exactly one `=`. `a=b=c` is an error,
  not a tag `a` with value `b=c`.
- The host list comprehension reads `key_to_use` from every instance of a
  reservation before it takes the first. So an instance lacking the
  attribute anywhere in a reservation is an error, even when it is not the
  first instance.
- Only ConfigParser's NoOptionError is caught. A missing section is an
  error. That includes a missing `default` section when the profile section
  lacks the key, and a config file that does not exist at all. So the
  built-in default is reached only when both sections exist.
- The command is one shell string, `ssh <args> <target> <remote>`, which
  `os.system` hands to the shell.

## Model

| member | source | states |
|---|---|---|
| Strings.Split | ssh2ec2/__init__.py:35 | `split('=')` yields one more piece than there are separators, and no piece contains the separator |
| Strings.JoinSplit | ssh2ec2/__init__.py:35 | joining the pieces of a split with the separator gives back the original argument |
| Strings.SplitJoin | ssh2ec2/__init__.py:35 | splitting a join of separator-free pieces gives back exactly those pieces |
| Filters.ParseTag | ssh2ec2/__init__.py:34-39 | a tag parses iff it has exactly one `=`; the filter is then `tag:` + the text before the `=` with the text after it as its only value; otherwise the error names the tag |
| Filters.ParseTagKeyValue | ssh2ec2/__init__.py:35-39 | for `=`-free `k` and `v`, the argument `k=v` yields exactly the filter `tag:k` with values `[v]` |
| Filters.TagFilters | ssh2ec2/__init__.py:33-39 | succeeds iff every tag is well formed, with one filter per tag in argument order; otherwise fails with the first malformed tag |
| Filters.Each | ssh2ec2/__init__.py:41-53 | the `for … append` loops give one filter per argument, in argument order, each carrying that argument as its only value |
| Filters.Given | ssh2ec2/__init__.py:55-101 | the single-valued flags emit as many filters as flags are given, each with one non-empty value |
| Filters.GivenOrigin | ssh2ec2/__init__.py:55-101 | every emitted flag filter comes from a given flag of the table, and its index is the number of given flags before that flag |
| Filters.GivenPosition | ssh2ec2/__init__.py:55-101 | every given flag's filter is emitted at the index equal to the number of given flags before it, so table order is kept |
| Filters.GetFilters | ssh2ec2/__init__.py:24-103 | succeeds iff all tags are well formed, else fails with the first malformed one; the list starts with the running filter and has length 1 + #tags + #tag-keys + #tag-values + #given flags |
| Filters.GetFiltersLayout | ssh2ec2/__init__.py:26-101 | tag filters come right after the running filter in argument order, then the tag-key filters, then the tag-value filters, then the flag filters |
| Filters.OneValueEach | ssh2ec2/__init__.py:26-101 | every filter of the list carries exactly one value |
| Filters.GivenFlagPlaced | ssh2ec2/__init__.py:55-101 | a given flag's filter follows all repeatable-option filters, at the position fixed by the given flags before it in the table |
| Filters.FlagNamesDistinct | ssh2ec2/__init__.py:55-101 | the eight flag filter names are pairwise distinct |
| Filters.AtMostOnePerFlag | ssh2ec2/__init__.py:55-101 | no filter name occurs twice among the flag filters, so each flag emits at most one filter |
| Filters.AbsentFlagEmitsNothing | ssh2ec2/__init__.py:55-101 | an absent flag contributes no filter of its name anywhere in the list |
| Config.SectionFor | ssh2ec2/__init__.py:10 | the first section read is `default` exactly when no profile is named; otherwise it is `profile ` followed by the profile name |
| Config.GetConfigValue | ssh2ec2/__init__.py:9-22 | fails (NoSectionError) iff the first section is missing, or it lacks the key and `default` is missing, naming that missing section; a success is the built-in default or a value one of the two sections sets |
| Config.Resolve | ssh2ec2/__init__.py:170-172 | the full precedence: a non-empty command-line value, else the profile section's value, else the `default` section's, else the built-in default; a missing consulted section is an error naming it |
| Config.ProfileSectionWins | ssh2ec2/__init__.py:14-15 | a key set in the first section is taken from it |
| Config.DefaultSectionFallback | ssh2ec2/__init__.py:16-18 | a key missing from the first section is taken from `default` |
| Config.BuiltInDefaultFallback | ssh2ec2/__init__.py:19-20 | a key set in neither existing section yields the built-in default |
| Config.MissingSectionFails | ssh2ec2/__init__.py:10-15 | a missing first section is an error naming that section |
| Config.MissingDefaultSectionFails | ssh2ec2/__init__.py:14-18 | a profile section without the key and no `default` section is an error naming `default` |
| Config.EmptyConfigFails | ssh2ec2/__init__.py:11-20 | without a config file every lookup fails, so the built-in default is never reached |
| Dispatch.FirstHost | ssh2ec2/__init__.py:158-159 | a reservation yields a name iff it has an instance and every instance has the key; the name is the first instance's value; otherwise IndexError or KeyError |
| Dispatch.HostNames | ssh2ec2/__init__.py:158-161 | succeeds iff every reservation yields a name, with one name per reservation in reservation order; otherwise fails with the first failing reservation's error |
| Dispatch.Select | ssh2ec2/__init__.py:162-166 | keeping all returns the list unchanged; otherwise the result has one element, a member of the list |
| Dispatch.EveryHostSelectable | ssh2ec2/__init__.py:166 | every candidate host is the single choice for some index in range |
| Dispatch.BuildCommands | ssh2ec2/__init__.py:174-178 | one command per host in order, each `ssh <args> <target> <remote>` where the target is `user@host` for a non-empty user and the bare host otherwise |
| Dispatch.Plan | ssh2ec2/__init__.py:152-178 | a malformed tag stops the run with the first malformed tag's error; zero reservations give the no-match error and no commands; a success carries the filters and as many commands as reservations when keeping all, else one |
| Dispatch.PlanSucceeds | ssh2ec2/__init__.py:152-178 | once the config lookups succeed, the run succeeds iff all tags are well formed, some reservation came back, and every reservation yields a host name |
| Dispatch.PlanHostKeyLookupFails | ssh2ec2/__init__.py:153-157 | after a non-empty response, a failing `key_to_use` lookup fails the run with that lookup's error |
| Dispatch.PlanHostNamesFail | ssh2ec2/__init__.py:157-172 | after a successful `key_to_use` lookup, a reservation without a host name fails the run with its IndexError/KeyError, before the `ssh_user` and `ssh_args` lookups |
| Dispatch.PlanUserLookupFails | ssh2ec2/__init__.py:157-170 | once the host names are found, a failing `ssh_user` lookup fails the run with its error and no command is built |
| Dispatch.PlanArgsLookupFails | ssh2ec2/__init__.py:157-172 | once the user is resolved, a failing `ssh_args` lookup fails the run with its error |
| Dispatch.AllHostsCommands | ssh2ec2/__init__.py:157-178 | keeping all gives one command per reservation in order, aimed at the first instance's name with the joined remote command |
| Dispatch.SingleHostCommand | ssh2ec2/__init__.py:162-178 | otherwise the one command targets the reservation at `pick` and runs no remote command |
| Dispatch.AllMatchingNoUser | ssh2ec2/__init__.py:157-178 | with all matching instances, no profile, no user, arguments or command on the command line, a `default` section that sets none of `key_to_use`, `ssh_user`, `ssh_args`, and every reservation yielding a `PublicDnsName`, each reservation gets `ssh  <first instance's PublicDnsName> `, in order |

## Left out

- `boto3.setup_default_session`, `boto3.client` and `describe_instances` (ssh2ec2/__init__.py:144-152) call AWS. Their result is the `response` input of `Dispatch.Plan`. The ProfileNotFound exit, the `--region` option and any API-side failure are not modelled. The response is not tied to the filters sent.
- `os.system(ssh_cmd)` (ssh2ec2/__init__.py:180) spawns processes. The model stops at the list of command strings and says nothing about exit codes.
- `parse_args` and argparse (ssh2ec2/__init__.py:106-137) are a library wrapper. Their output is the `Cli.Args` record. An option that was not given and one given as the empty string are the same value.
- Reading the config file (ssh2ec2/__init__.py:11-13) is file I/O. So is ConfigParser's parsing, interpolation, option-name lower-casing and `DEFAULT`-section inheritance. The parsed file is a map.
- `random.randrange` (ssh2ec2/__init__.py:166) is randomness. It is the caller-chosen index `pick`, with precondition `|response| > 0 ==> pick < |response|`. Uniformity is not modelled. `Dispatch.EveryHostSelectable` only shows that every candidate can be chosen.
- `print` of the no-match message and `sys.exit(1)` (ssh2ec2/__init__.py:154-155) are output. They are the `NoMatchingInstances` error.
- setup.py is packaging metadata and has no logic.

=== FILE: cli.dfy ===
/**
  The parsed command line, as argparse hands it to `get_filters` and `main`.
  Repeatable options are sequences in argument order (an option never given
  is the empty sequence); single-valued options are strings, where the empty
  string stands for an option that was not given, since the program only
  ever tests them for truthiness.
 */
module Cli {

  datatype Args = Args(
    // EC2 filters
    tag: seq<string>,              // --tag k=v, repeatable
    hasTagKey: seq<string>,        // --has-tag-key, repeatable
    hasTagValue: seq<string>,      // --has-tag-value, repeatable
    availabilityZone: string,      // -a / --availability-zone
    imageId: string,               // --image-id
    instanceId: string,            // --instance-id
    instanceType: string,          // --instance-type
    securityGroup: string,         // --security-group
    keyName: string,               // --key-name
    subnetId: string,              // --subnet-id
    vpcId: string,                 // --vpc-id
    // AWS connection
    profile: string,               // --profile
    region: string,                // --region
    // SSH
    sshUser: string,               // --ssh-user
    sshArgs: string,               // --ssh-args (default '')
    allMatchingInstances: bool,    // --all-matching-instances
    command: seq<string>           // the remainder of the command line
  )
}

=== FILE: config.dfy ===
/**
  `get_config_value` and the command-line overrides in `main`. The parsed
  config file is a map from section name to that section's options.
  ConfigParser's NoOptionError is caught and falls back; its NoSectionError
  is not, so a missing section stops the program.
 */
module Config {
  import opened Errors

  /** The parsed `~/.aws/config`: section name to option name to value. */
  type ConfigFile = map<string, map<string, string>>

  const DefaultSection: string := "default"

  /** The section consulted first: `profile <name>`, or `default` when no profile is named. */
  function SectionFor(profile: string): (s: string)
    ensures s == DefaultSection <==> profile == ""
    ensures profile != "" ==> |s| > 8 && s[..8] == "profile " && s[8..] == profile
  {
    if profile != "" then "profile " + profile else DefaultSection
  }

  /** Whether `section` exists and sets `key`. */
  predicate Sets(config: ConfigFile, section: string, key: string)
  {
    section in config && key in config[section]
  }

  /** `get_config_value(profile, key, default)`. */
  function GetConfigValue(config: ConfigFile, profile: string, key: string, default: string)
    : (r: Result<string>)
    ensures r.Err? <==> SectionFor(profile) !in config ||
                        (!Sets(config, SectionFor(profile), key) && DefaultSection !in config)
    ensures r.Err? ==> r.error == NoSuchSection(if SectionFor(profile) !in config
                                                then SectionFor(profile) else DefaultSection)
    ensures r.Ok? ==> r.value == default ||
                      (Sets(config, SectionFor(profile), key) && r.value == config[SectionFor(profile)][key]) ||
                      (Sets(config, DefaultSection, key) && r.value == config[DefaultSection][key])
  {
    var section := SectionFor(profile);
    if section !in config then Err(NoSuchSection(section))
    else if key in config[section] then Ok(config[section][key])
    else if DefaultSection !in config then Err(NoSuchSection(DefaultSection))
    else if key in config[DefaultSection] then Ok(config[DefaultSection][key])
    else Ok(default)
  }

  /**
    The value `main` uses for `ssh_user` and `ssh_args`: a non-empty
    command-line value, else the profile section's, else the `default`
    section's, else the built-in default; a missing section consulted on
    the way is an error.
   */
  function Resolve(cli: string, config: ConfigFile, profile: string, key: string, default: string)
    : (r: Result<string>)
    ensures cli != "" ==> r == Ok(cli)
    ensures cli == "" && Sets(config, SectionFor(profile), key) ==>
              r == Ok(config[SectionFor(profile)][key])
    ensures cli == "" && SectionFor(profile) in config && !Sets(config, SectionFor(profile), key) &&
            Sets(config, DefaultSection, key) ==>
              r == Ok(config[DefaultSection][key])
    ensures cli == "" && SectionFor(profile) in config && DefaultSection in config &&
            !Sets(config, SectionFor(profile), key) && !Sets(config, DefaultSection, key) ==>
              r == Ok(default)
    ensures cli == "" && SectionFor(profile) !in config ==>
              r == Err(NoSuchSection(SectionFor(profile)))
    ensures cli == "" && SectionFor(profile) in config && !Sets(config, SectionFor(profile), key) &&
            DefaultSection !in config ==>
              r == Err(NoSuchSection(DefaultSection))
  {
    if cli != "" then Ok(cli) else GetConfigValue(config, profile, key, default)
  }

  /** A profile section that sets the key wins over the `default` section and the built-in default. */
  lemma ProfileSectionWins(config: ConfigFile, profile: string, key: string, default: string)
    requires Sets(config, SectionFor(profile), key)
    ensures GetConfigValue(config, profile, key, default) == Ok(config[SectionFor(profile)][key])
  {
  }

  /** A key missing from the profile section is read from the `default` section. */
  lemma DefaultSectionFallback(config: ConfigFile, profile: string, key: string, default: string)
    requires SectionFor(profile) in config && !Sets(config, SectionFor(profile), key)
    requires Sets(config, DefaultSection, key)
    ensures GetConfigValue(config, profile, key, default) == Ok(config[DefaultSection][key])
  {
  }

  /** A key set in neither section yields the built-in default, as long as both sections exist. */
  lemma BuiltInDefaultFallback(config: ConfigFile, profile: string, key: string, default: string)
    requires SectionFor(profile) in config && DefaultSection in config
    requires !Sets(config, SectionFor(profile), key) && !Sets(config, DefaultSection, key)
    ensures GetConfigValue(config, profile, key, default) == Ok(default)
  {
  }

  /** A missing profile section is an error, whatever the `default` section says. */
  lemma MissingSectionFails(config: ConfigFile, profile: string, key: string, default: string)
    requires SectionFor(profile) !in config
    ensures GetConfigValue(config, profile, key, default) == Err(NoSuchSection(SectionFor(profile)))
  {
  }

  /** Without a config file at all, every lookup fails: the built-in default is never reached. */
  lemma EmptyConfigFails(profile: string, key: string, default: string)
    ensures GetConfigValue(map[], profile, key, default).Err?
  {
  }

  /**
    A profile section that exists but lacks the key, with no `default`
    section, is an error naming `default`.
   */
  lemma MissingDefaultSectionFails(config: ConfigFile, profile: string, key: string, default: string)
    requires SectionFor(profile) in config && !Sets(config, SectionFor(profile), key)
    requires DefaultSection !in config
    ensures GetConfigValue(config, profile, key, default) == Err(NoSuchSection(DefaultSection))
  {
  }
}

=== FILE: dispatch.dfy ===
/**
  The body of `main` after the query: one host name per reservation,
  narrowing to a single host unless all hosts were asked for or a remote
  command was given, and one `ssh` command line per selected host.
  The describe-instances response is an input: a sequence of reservations,
  each a sequence of instances, each a map from attribute name to value.
  The random choice of `random.randrange` is the parameter `pick`.
 */
module Dispatch {
  import opened Errors
  import opened Strings
  import opened Cli
  import opened Filters
  import opened Config

  type Instance = map<string, string>
  type Reservation = seq<Instance>

  /** The built-in default of the `key_to_use` option. */
  const DefaultHostKey: string := "PublicDnsName"

  /** Whether a reservation yields a host name: it has an instance, and every instance has `key`. */
  predicate HasHost(res: Reservation, key: string)
  {
    |res| > 0 && forall i :: 0 <= i < |res| ==> key in res[i]
  }

  /**
    The host name of one reservation. The list comprehension reads `key`
    from every instance before `[0]` takes the first, so any instance
    lacking the key raises KeyError, and an empty reservation IndexError.
   */
  function FirstHost(res: Reservation, key: string): (r: Result<string>)
    ensures r.Ok? <==> HasHost(res, key)
    ensures r.Ok? ==> r.value == res[0][key]
    ensures r.Err? ==> r.error == (if |res| == 0 then EmptyReservation else MissingHostKey(key))
  {
    if exists i :: 0 <= i < |res| && key !in res[i] then Err(MissingHostKey(key))
    else if |res| == 0 then Err(EmptyReservation)
    else Ok(res[0][key])
  }

  /**
    `instance_dns_names`: one host name per reservation, in reservation
    order, or the error of the first reservation that has none.
   */
  function HostNames(rs: seq<Reservation>, key: string): (r: Result<seq<string>>)
    ensures r.Ok? <==> forall j :: 0 <= j < |rs| ==> HasHost(rs[j], key)
    ensures r.Ok? ==> |r.value| == |rs| &&
                      forall j :: 0 <= j < |rs| ==> r.value[j] == rs[j][0][key]
    ensures r.Err? ==> exists j :: 0 <= j < |rs| && !HasHost(rs[j], key) &&
                        r.error == FirstHost(rs[j], key).error &&
                        forall i :: 0 <= i < j ==> HasHost(rs[i], key)
  {
    if |rs| == 0 then Ok([])
    else
      match FirstHost(rs[0], key)
      case Err(e) => Err(e)
      case Ok(h) =>
        match HostNames(rs[1..], key)
        case Err(e) =>
          assert forall j :: 0 < j < |rs| ==> rs[j] == rs[1..][j - 1];
          Err(e)
        case Ok(hs) => Ok([h] + hs)
  }

  /** Whether the full host list is kept: `args.all_matching_instances or args.command`. */
  predicate KeepAll(a: Args)
  {
    a.allMatchingInstances || |a.command| > 0
  }

  /** The hosts to connect to: all of them, or the one at the caller-chosen index `pick`. */
  function Select(hosts: seq<string>, keepAll: bool, pick: nat): (r: seq<string>)
    requires pick < |hosts|
    ensures keepAll ==> r == hosts
    ensures !keepAll ==> |r| == 1 && r[0] in hosts
  {
    if keepAll then hosts else [hosts[pick]]
  }

  /** Every candidate host is the single choice for some index. */
  lemma EveryHostSelectable(hosts: seq<string>, h: string)
    requires h in hosts
    ensures exists p: nat :: p < |hosts| && Select(hosts, false, p) == [h]
  {
    var p :| 0 <= p < |hosts| && hosts[p] == h;
    assert Select(hosts, false, p) == [h];
  }

  /** The ssh target: `user@host` when a user is set, the bare host otherwise. */
  function Target(user: string, host: string): string
  {
    if user != "" then user + "@" + host else host
  }

  /** `'ssh %s %s %s' % (ssh_args, target, remote_command)`. */
  function SshCommand(sshArgs: string, target: string, remote: string): string
  {
    "ssh " + sshArgs + " " + target + " " + remote
  }

  /** One command line per host, in host order (the `for dns_name` loop). */
  function BuildCommands(hosts: seq<string>, user: string, sshArgs: string, remote: string)
    : (r: seq<string>)
    ensures |r| == |hosts|
    ensures forall i :: 0 <= i < |hosts| ==> r[i] == SshCommand(sshArgs, Target(user, hosts[i]), remote)
  {
    if |hosts| == 0 then []
    else [SshCommand(sshArgs, Target(user, hosts[0]), remote)]
         + BuildCommands(hosts[1..], user, sshArgs, remote)
  }

  /** What a successful run hands to the API and to the shell. */
  datatype Run = Run(filters: seq<Filter>, commands: seq<string>)

  /**
    `main` from the filters to the commands. The filters are built first (a
    malformed tag stops everything); `response` is what describe-instances
    returned for them; `pick` stands for `random.randrange(0, n)`.
   */
  function Plan(a: Args, config: ConfigFile, response: seq<Reservation>, pick: nat)
    : (r: Result<Run>)
    requires |response| > 0 ==> pick < |response|
    ensures GetFilters(a).Err? ==> r == Err(GetFilters(a).error)
    ensures GetFilters(a).Ok? && |response| == 0 ==> r == Err(NoMatchingInstances)
    ensures r.Ok? ==> GetFilters(a) == Ok(r.value.filters) && |response| > 0
    ensures r.Ok? ==> |r.value.commands| == (if KeepAll(a) then |response| else 1)
  {
    var filters :- GetFilters(a);
    if |response| == 0 then Err(NoMatchingInstances)
    else
      var key :- GetConfigValue(config, a.profile, "key_to_use", DefaultHostKey);
      var hosts :- HostNames(response, key);
      var selected := Select(hosts, KeepAll(a), pick);
      var remote := if |a.command| > 0 then Join(a.command, ' ') else "";
      var user :- Resolve(a.sshUser, config, a.profile, "ssh_user", "");
      var sshArgs :- Resolve(a.sshArgs, config, a.profile, "ssh_args", "");
      Ok(Run(filters, BuildCommands(selected, user, sshArgs, remote)))
  }

  /**
    Once the config lookups have succeeded, the run succeeds exactly when
    every tag is well formed, some reservation came back, and every
    reservation yields a host name.
   */
  lemma PlanSucceeds(a: Args, config: ConfigFile, response: seq<Reservation>, pick: nat,
                     key: string, user: string, sshArgs: string)
    requires |response| > 0 ==> pick < |response|
    requires GetConfigValue(config, a.profile, "key_to_use", DefaultHostKey) == Ok(key)
    requires Resolve(a.sshUser, config, a.profile, "ssh_user", "") == Ok(user)
    requires Resolve(a.sshArgs, config, a.profile, "ssh_args", "") == Ok(sshArgs)
    ensures Plan(a, config, response, pick).Ok? <==>
              (forall i :: 0 <= i < |a.tag| ==> WellFormedTag(a.tag[i])) &&
              |response| > 0 &&
              forall j :: 0 <= j < |response| ==> HasHost(response[j], key)
  {
  }

  /**
    With all matching instances (or a remote command) there is one command
    per reservation, in reservation order, each aimed at the first
    instance's host name and carrying the joined remote command.
   */
  lemma AllHostsCommands(a: Args, config: ConfigFile, response: seq<Reservation>, pick: nat,
                         key: string, user: string, sshArgs: string)
    requires |response| > 0 ==> pick < |response|
    requires GetConfigValue(config, a.profile, "key_to_use", DefaultHostKey) == Ok(key)
    requires Resolve(a.sshUser, config, a.profile, "ssh_user", "") == Ok(user)
    requires Resolve(a.sshArgs, config, a.profile, "ssh_args", "") == Ok(sshArgs)
    requires Plan(a, config, response, pick).Ok? && KeepAll(a)
    ensures var cmds := Plan(a, config, response, pick).value.commands;
      |cmds| == |response| &&
      forall j :: 0 <= j < |response| ==>
        cmds[j] == SshCommand(sshArgs, Target(user, response[j][0][key]), Join(a.command, ' '))
  {
  }

  /**
    Otherwise exactly one command is built, for the reservation at `pick`,
    and it runs no remote command: a remote command would have kept all hosts.
   */
  lemma SingleHostCommand(a: Args, config: ConfigFile, response: seq<Reservation>, pick: nat,
                          key: string, user: string, sshArgs: string)
    requires |response| > 0 ==> pick < |response|
    requires GetConfigValue(config, a.profile, "key_to_use", DefaultHostKey) == Ok(key)
    requires Resolve(a.sshUser, config, a.profile, "ssh_user", "") == Ok(user)
    requires Resolve(a.sshArgs, config, a.profile, "ssh_args", "") == Ok(sshArgs)
    requires Plan(a, config, response, pick).Ok? && !KeepAll(a)
    ensures Plan(a, config, response, pick).value.commands ==
              [SshCommand(sshArgs, Target(user, response[pick][0][key]), "")]
  {
  }

  /** A failing `key_to_use` lookup after a non-empty response fails the run with its error. */
  lemma PlanHostKeyLookupFails(a: Args, config: ConfigFile, response: seq<Reservation>, pick: nat)
    requires |response| > 0 ==> pick < |response|
    requires GetFilters(a).Ok? && |response| > 0
    requires GetConfigValue(config, a.profile, "key_to_use", DefaultHostKey).Err?
    ensures Plan(a, config, response, pick) ==
              Err(GetConfigValue(config, a.profile, "key_to_use", DefaultHostKey).error)
  {
  }

  /**
    A reservation without a host name fails the run with its IndexError or
    KeyError, before the `ssh_user` and `ssh_args` lookups are made.
   */
  lemma PlanHostNamesFail(a: Args, config: ConfigFile, response: seq<Reservation>, pick: nat,
                          key: string)
    requires |response| > 0 ==> pick < |response|
    requires GetFilters(a).Ok? && |response| > 0
    requires GetConfigValue(config, a.profile, "key_to_use", DefaultHostKey) == Ok(key)
    requires HostNames(response, key).Err?
    ensures Plan(a, config, response, pick) == Err(HostNames(response, key).error)
  {
  }

  /**
    A failing `ssh_user` lookup fails the run with its error, once the host
    names were found: no command is built for any host.
   */
  lemma PlanUserLookupFails(a: Args, config: ConfigFile, response: seq<Reservation>, pick: nat,
                            key: string)
    requires |response| > 0 ==> pick < |response|
    requires GetFilters(a).Ok? && |response| > 0
    requires GetConfigValue(config, a.profile, "key_to_use", DefaultHostKey) == Ok(key)
    requires forall j :: 0 <= j < |response| ==> HasHost(response[j], key)
    requires Resolve(a.sshUser, config, a.profile, "ssh_user", "").Err?
    ensures Plan(a, config, response, pick) ==
              Err(Resolve(a.sshUser, config, a.profile, "ssh_user", "").error)
  {
  }

  /** A failing `ssh_args` lookup, after the `ssh_user` one succeeded, fails the run with its error. */
  lemma PlanArgsLookupFails(a: Args, config: ConfigFile, response: seq<Reservation>, pick: nat,
                            key: string, user: string)
    requires |response| > 0 ==> pick < |response|
    requires GetFilters(a).Ok? && |response| > 0
    requires GetConfigValue(config, a.profile, "key_to_use", DefaultHostKey) == Ok(key)
    requires forall j :: 0 <= j < |response| ==> HasHost(response[j], key)
    requires Resolve(a.sshUser, config, a.profile, "ssh_user", "") == Ok(user)
    requires Resolve(a.sshArgs, config, a.profile, "ssh_args", "").Err?
    ensures Plan(a, config, response, pick) ==
              Err(Resolve(a.sshArgs, config, a.profile, "ssh_args", "").error)
  {
  }

  /**
    With `--all-matching-instances`, no profile, no ssh user or ssh
    arguments on the command line, and a `default` section that sets none
    of `key_to_use`, `ssh_user` and `ssh_args`, each reservation's public
    name gets the command `ssh  <name> `, in reservation order.
   */
  lemma AllMatchingNoUser(a: Args, config: ConfigFile, response: seq<Reservation>)
    requires a.allMatchingInstances && a.command == []
    requires a.profile == "" && a.sshUser == "" && a.sshArgs == ""
    requires DefaultSection in config
    requires "key_to_use" !in config[DefaultSection] && "ssh_user" !in config[DefaultSection] &&
             "ssh_args" !in config[DefaultSection]
    requires GetFilters(a).Ok?
    requires |response| > 0
    requires forall j :: 0 <= j < |response| ==> HasHost(response[j], DefaultHostKey)
    ensures var r := Plan(a, config, response, 0);
      r.Ok? && |r.value.commands| == |response| &&
      forall j :: 0 <= j < |response| ==>
        r.value.commands[j] == "ssh  " + response[j][0][DefaultHostKey] + " "
  {
    assert GetConfigValue(config, "", "key_to_use", DefaultHostKey) == Ok(DefaultHostKey);
    assert Resolve("", config, "", "ssh_user", "") == Ok("");
    assert Resolve("", config, "", "ssh_args", "") == Ok("");
    var cmds := Plan(a, config, response, 0).value.commands;
    forall j | 0 <= j < |response| ensures cmds[j] == "ssh  " + response[j][0][DefaultHostKey] + " " {
      var name := response[j][0][DefaultHostKey];
      assert "ssh " + "" + " " + name + " " + "" == "ssh  " + name + " ";
    }
  }
}

=== FILE: errors.dfy ===
/**
  Failure values of the ssh2ec2 pipeline. Every place where the program
  would stop with an uncaught exception or an explicit exit becomes an
  `Err` of `Result`, so that the pipeline is a total function.
 */
module Errors {

  /** The ways the pipeline can stop before any ssh command is built. */
  datatype Error =
    | MalformedTag(tag: string)          // `k, v = t.split('=')` cannot unpack
    | NoSuchSection(section: string)     // ConfigParser's NoSectionError, never caught
    | NoMatchingInstances                // the API returned zero reservations
    | EmptyReservation                   // `[...][0]` on a reservation with no instances
    | MissingHostKey(key: string)        // `instance[key_to_use]` raises KeyError

  /** A value, or the error that stopped the computation. */
  datatype Result<+T> = Ok(value: T) | Err(error: Error) {

    predicate IsFailure() {
      Err?
    }

    function PropagateFailure<U>(): Result<U>
      requires Err?
    {
      Err(error)
    }

    function Extract(): T
      requires Ok?
    {
      value
    }
  }
}

=== FILE: filters.dfy ===
/**
  `get_filters`: the parsed command line becomes the ordered list of
  describe-instances filters. The list opens with the "running" filter,
  then one filter per `--tag`, `--has-tag-key` and `--has-tag-value` in
  argument order, then at most one filter per single-valued flag in a
  fixed order.
 */
module Filters {
  import opened Errors
  import opened Strings
  import opened Cli

  /** One describe-instances filter: a name and its accepted values. */
  datatype Filter = Filter(name: string, values: seq<string>)

  /** The filter every query starts with. */
  const RunningFilter: Filter := Filter("instance-state-name", ["running"])

  /** A `--tag` argument the two-way unpack of `split('=')` accepts. */
  predicate WellFormedTag(t: string)
  {
    Count(t, '=') == 1
  }

  /**
    One `--tag` argument. `split('=')` has no limit, so the unpack into
    `k, v` succeeds exactly when there is one `=`; the filter is then
    `tag:k` with the single value `v`.
   */
  function ParseTag(t: string): (r: Result<Filter>)
    ensures r.Ok? <==> WellFormedTag(t)
    ensures r.Err? ==> r.error == MalformedTag(t)
    ensures r.Ok? ==> exists i :: 0 <= i < |t| && t[i] == '=' &&
                        r.value == Filter("tag:" + t[..i], [t[i + 1..]])
  {
    var parts := Split(t, '=');
    if |parts| == 2 then
      JoinSplit(t, '=');
      assert t == parts[0] + "=" + parts[1];
      assert t[|parts[0]|] == '=' && t[..|parts[0]|] == parts[0] && t[|parts[0]| + 1..] == parts[1];
      Ok(Filter("tag:" + parts[0], [parts[1]]))
    else
      Err(MalformedTag(t))
  }

  /** A tag `k=v` whose key and value hold no `=` yields the filter `tag:k` = [v]. */
  lemma ParseTagKeyValue(k: string, v: string)
    requires '=' !in k && '=' !in v
    ensures ParseTag(k + "=" + v) == Ok(Filter("tag:" + k, [v]))
  {
    assert Join([k, v], '=') == k + "=" + v;
    SplitJoin([k, v], '=');
  }

  /**
    The tag filters, in argument order; the first malformed tag stops the
    whole list, as the exception in the loop does.
   */
  function TagFilters(tags: seq<string>): (r: Result<seq<Filter>>)
    ensures r.Ok? <==> forall i :: 0 <= i < |tags| ==> WellFormedTag(tags[i])
    ensures r.Ok? ==> |r.value| == |tags| &&
                      forall i :: 0 <= i < |tags| ==> ParseTag(tags[i]) == Ok(r.value[i])
    ensures r.Err? ==> exists i :: 0 <= i < |tags| && !WellFormedTag(tags[i]) &&
                        r.error == MalformedTag(tags[i]) &&
                        forall j :: 0 <= j < i ==> WellFormedTag(tags[j])
  {
    if |tags| == 0 then Ok([])
    else
      match ParseTag(tags[0])
      case Err(e) => Err(e)
      case Ok(f) =>
        match TagFilters(tags[1..])
        case Err(e) =>
          assert forall i :: 0 < i < |tags| ==> tags[i] == tags[1..][i - 1];
          Err(e)
        case Ok(fs) => Ok([f] + fs)
  }

  /** One filter named `name` per value, in order (the `--has-tag-*` loops). */
  function Each(name: string, vs: seq<string>): (r: seq<Filter>)
    ensures |r| == |vs|
    ensures forall i :: 0 <= i < |vs| ==> r[i] == Filter(name, [vs[i]])
  {
    if |vs| == 0 then [] else [Filter(name, [vs[0]])] + Each(name, vs[1..])
  }

  /** Filter names of the single-valued flags, in the order they are emitted. */
  const FlagNames: seq<string> := [
    "availability-zone", "image-id", "instance-id", "instance-type",
    "instance.group-name", "key-name", "subnet-id", "vpc-id"
  ]

  /** The single-valued flags' values, aligned with `FlagNames`. */
  function FlagValues(a: Args): (vs: seq<string>)
    ensures |vs| == |FlagNames|
  {
    [a.availabilityZone, a.imageId, a.instanceId, a.instanceType,
     a.securityGroup, a.keyName, a.subnetId, a.vpcId]
  }

  /** Number of non-empty (that is, given) values. */
  function CountGiven(vs: seq<string>): nat
  {
    if |vs| == 0 then 0 else (if vs[0] != "" then 1 else 0) + CountGiven(vs[1..])
  }

  /** One filter per given flag, skipping the absent ones, in table order. */
  function Given(names: seq<string>, vs: seq<string>): (r: seq<Filter>)
    requires |names| == |vs|
    ensures |r| == CountGiven(vs)
    ensures forall k :: 0 <= k < |r| ==> |r[k].values| == 1 && r[k].values[0] != ""
  {
    if |vs| == 0 then []
    else
      (if vs[0] != "" then [Filter(names[0], [vs[0]])] else []) + Given(names[1..], vs[1..])
  }

  /**
    Every emitted filter comes from a given flag of the table, the one whose
    position among the given flags is the filter's index.
   */
  lemma {:induction false} GivenOrigin(names: seq<string>, vs: seq<string>, k: nat)
    requires |names| == |vs| && k < |Given(names, vs)|
    ensures exists i :: 0 <= i < |vs| && vs[i] != "" && k == CountGiven(vs[..i]) &&
                        Given(names, vs)[k] == Filter(names[i], [vs[i]])
  {
    var head := if vs[0] != "" then [Filter(names[0], [vs[0]])] else [];
    var rest := Given(names[1..], vs[1..]);
    assert Given(names, vs) == head + rest;
    if k < |head| {
      assert vs[..0] == [];
      assert Given(names, vs)[k] == Filter(names[0], [vs[0]]);
    } else {
      GivenOrigin(names[1..], vs[1..], k - |head|);
      var j :| 0 <= j < |vs[1..]| && vs[1..][j] != "" && k - |head| == CountGiven(vs[1..][..j]) &&
               rest[k - |head|] == Filter(names[1..][j], [vs[1..][j]]);
      assert vs[..j + 1][1..] == vs[1..][..j];
      assert Given(names, vs)[k] == rest[k - |head|];
      assert vs[j + 1] != "" && k == CountGiven(vs[..j + 1]) &&
             Given(names, vs)[k] == Filter(names[j + 1], [vs[j + 1]]);
    }
  }

  /**
    Every given flag's filter sits at the position given by the number of
    given flags before it: the emitted filters keep the table's order.
   */
  lemma {:induction false} GivenPosition(names: seq<string>, vs: seq<string>, i: nat)
    requires |names| == |vs| && i < |vs| && vs[i] != ""
    ensures CountGiven(vs[..i]) < |Given(names, vs)|
    ensures Given(names, vs)[CountGiven(vs[..i])] == Filter(names[i], [vs[i]])
  {
    var head := if vs[0] != "" then [Filter(names[0], [vs[0]])] else [];
    assert Given(names, vs) == head + Given(names[1..], vs[1..]);
    if i == 0 {
      assert vs[..0] == [];
    } else {
      GivenPosition(names[1..], vs[1..], i - 1);
      assert vs[..i][1..] == vs[1..][..i - 1];
    }
  }

  /** The filters of the single-valued flags. */
  function FlagFilters(a: Args): seq<Filter>
  {
    Given(FlagNames, FlagValues(a))
  }

  /** `get_filters`: the whole filter list, or the error of the first malformed tag. */
  function GetFilters(a: Args): (r: Result<seq<Filter>>)
    ensures r.Ok? <==> forall i :: 0 <= i < |a.tag| ==> WellFormedTag(a.tag[i])
    ensures r.Err? ==> exists i :: 0 <= i < |a.tag| && !WellFormedTag(a.tag[i]) &&
                        r.error == MalformedTag(a.tag[i]) &&
                        forall j :: 0 <= j < i ==> WellFormedTag(a.tag[j])
    ensures r.Ok? ==> |r.value| > 0 && r.value[0] == RunningFilter
    ensures r.Ok? ==> |r.value| == 1 + |a.tag| + |a.hasTagKey| + |a.hasTagValue|
                                     + CountGiven(FlagValues(a))
  {
    match TagFilters(a.tag)
    case Err(e) => Err(e)
    case Ok(tags) =>
      Ok([RunningFilter] + tags + Each("tag-key", a.hasTagKey)
         + Each("tag-value", a.hasTagValue) + FlagFilters(a))
  }

  /** Where each group of filters sits in the list `GetFilters` returns. */
  lemma GetFiltersLayout(a: Args)
    requires GetFilters(a).Ok?
    ensures var fs := GetFilters(a).value;
      && (forall i :: 0 <= i < |a.tag| ==> ParseTag(a.tag[i]) == Ok(fs[1 + i]))
      && (forall i :: 0 <= i < |a.hasTagKey| ==>
            fs[1 + |a.tag| + i] == Filter("tag-key", [a.hasTagKey[i]]))
      && (forall i :: 0 <= i < |a.hasTagValue| ==>
            fs[1 + |a.tag| + |a.hasTagKey| + i] == Filter("tag-value", [a.hasTagValue[i]]))
      && fs[1 + |a.tag| + |a.hasTagKey| + |a.hasTagValue|..] == FlagFilters(a)
  {
  }

  /** Every filter of the list carries exactly one value. */
  lemma OneValueEach(a: Args)
    requires GetFilters(a).Ok?
    ensures forall f :: f in GetFilters(a).value ==> |f.values| == 1
  {
  }

  /**
    A given single-valued flag yields its filter after every tag filter, at
    the position fixed by the given flags that precede it in the table.
   */
  lemma GivenFlagPlaced(a: Args, i: nat)
    requires GetFilters(a).Ok?
    requires i < |FlagNames| && FlagValues(a)[i] != ""
    ensures var k := 1 + |a.tag| + |a.hasTagKey| + |a.hasTagValue| + CountGiven(FlagValues(a)[..i]);
      k < |GetFilters(a).value| &&
      GetFilters(a).value[k] == Filter(FlagNames[i], [FlagValues(a)[i]])
  {
    GetFiltersLayout(a);
    GivenPosition(FlagNames, FlagValues(a), i);
  }

  /** The single-valued flags' filter names are pairwise distinct. */
  lemma FlagNamesDistinct()
    ensures forall i, j :: 0 <= i < j < |FlagNames| ==> FlagNames[i] != FlagNames[j]
  {
  }

  /** Each single-valued flag emits at most one filter. */
  lemma AtMostOnePerFlag(a: Args)
    ensures forall k1, k2 ::
              0 <= k1 < |FlagFilters(a)| && 0 <= k2 < |FlagFilters(a)| &&
              FlagFilters(a)[k1].name == FlagFilters(a)[k2].name
              ==> k1 == k2
  {
    var fs := FlagFilters(a);
    var vs := FlagValues(a);
    FlagNamesDistinct();
    forall k1, k2 | 0 <= k1 < |fs| && 0 <= k2 < |fs| && fs[k1].name == fs[k2].name
      ensures k1 == k2
    {
      GivenOrigin(FlagNames, vs, k1);
      GivenOrigin(FlagNames, vs, k2);
      var i1 :| 0 <= i1 < |vs| && vs[i1] != "" && k1 == CountGiven(vs[..i1]) &&
                fs[k1] == Filter(FlagNames[i1], [vs[i1]]);
      var i2 :| 0 <= i2 < |vs| && vs[i2] != "" && k2 == CountGiven(vs[..i2]) &&
                fs[k2] == Filter(FlagNames[i2], [vs[i2]]);
    }
  }

  /** An absent (empty) single-valued flag contributes no filter of its name. */
  lemma AbsentFlagEmitsNothing(a: Args, i: nat)
    requires GetFilters(a).Ok?
    requires i < |FlagNames| && FlagValues(a)[i] == ""
    ensures forall f :: f in GetFilters(a).value ==> f.name != FlagNames[i]
  {
    var fs := GetFilters(a).value;
    var vs := FlagValues(a);
    var n := 1 + |a.tag| + |a.hasTagKey| + |a.hasTagValue|;
    GetFiltersLayout(a);
    FlagNamesDistinct();
    var name := FlagNames[i];
    assert name[3] != ':';
    assert name != "instance-state-name" && name != "tag-key" && name != "tag-value";
    forall k | 0 <= k < |fs| ensures fs[k].name != name {
      if k == 0 {
      } else if k < 1 + |a.tag| {
        var t := a.tag[k - 1];
        assert ParseTag(t) == Ok(fs[k]);
        var j :| 0 <= j < |t| && t[j] == '=' && fs[k] == Filter("tag:" + t[..j], [t[j + 1..]]);
        assert fs[k].name[3] == ':';
      } else if k < 1 + |a.tag| + |a.hasTagKey| {
        assert fs[k] == fs[1 + |a.tag| + (k - 1 - |a.tag|)];
      } else if k < n {
        assert fs[k] == fs[1 + |a.tag| + |a.hasTagKey| + (k - 1 - |a.tag| - |a.hasTagKey|)];
      } else {
        assert fs[k] == FlagFilters(a)[k - n];
        GivenOrigin(FlagNames, vs, k - n);
        var j :| 0 <= j < |vs| && vs[j] != "" && k - n == CountGiven(vs[..j]) &&
                 fs[k] == Filter(FlagNames[j], [vs[j]]);
      }
    }
  }
}

=== FILE: strings.dfy ===
/**
  The two string operations the program relies on: Python's `str.split`
  with an explicit one-character separator and `str.join`.
 */
module Strings {

  /** Number of occurrences of `c` in `s`. */
  function Count(s: string, c: char): nat
  {
    if |s| == 0 then 0 else (if s[0] == c then 1 else 0) + Count(s[1..], c)
  }

  /**
    `s.split(sep)`: the maximal pieces between occurrences of `sep`. There is
    always one piece more than there are separators, and no piece contains one.
   */
  function Split(s: string, sep: char): (parts: seq<string>)
    ensures |parts| == Count(s, sep) + 1
    ensures forall i :: 0 <= i < |parts| ==> sep !in parts[i]
    decreases |s|
  {
    if |s| == 0 then [""]
    else if s[0] == sep then [""] + Split(s[1..], sep)
    else
      var rest := Split(s[1..], sep);
      [[s[0]] + rest[0]] + rest[1..]
  }

  /** `sep.join(parts)`: the pieces with one `sep` between neighbours. */
  function Join(parts: seq<string>, sep: char): string
  {
    if |parts| == 0 then ""
    else if |parts| == 1 then parts[0]
    else parts[0] + [sep] + Join(parts[1..], sep)
  }

  /** Joining the pieces of a split gives back the original string. */
  lemma {:induction false} JoinSplit(s: string, sep: char)
    ensures Join(Split(s, sep), sep) == s
    decreases |s|
  {
    if |s| == 0 {
    } else if s[0] == sep {
      var rest := Split(s[1..], sep);
      JoinSplit(s[1..], sep);
      assert Split(s, sep) == [""] + rest;
      assert ([""] + rest)[1..] == rest;
      assert s == [sep] + s[1..];
    } else {
      var rest := Split(s[1..], sep);
      JoinSplit(s[1..], sep);
      var parts := [[s[0]] + rest[0]] + rest[1..];
      assert Split(s, sep) == parts;
      assert s == [s[0]] + s[1..];
      if |rest| == 1 {
        assert Join(parts, sep) == [s[0]] + rest[0];
      } else {
        assert parts[1..] == rest[1..];
        assert Join(parts, sep) == [s[0]] + (rest[0] + [sep] + Join(rest[1..], sep));
      }
    }
  }

  /** A separator-free prefix becomes part of the first piece. */
  lemma {:induction false} SplitPrefix(p: string, t: string, sep: char)
    requires sep !in p
    ensures Split(p + t, sep) == [p + Split(t, sep)[0]] + Split(t, sep)[1..]
    decreases |p|
  {
    if |p| == 0 {
      assert p + t == t;
      var q := Split(t, sep);
      assert p + q[0] == q[0];
      assert [q[0]] + q[1..] == q;
    } else {
      assert p[0] in p;
      assert (p + t)[0] == p[0];
      assert (p + t)[1..] == p[1..] + t;
      assert forall x :: x in p[1..] ==> x in p;
      SplitPrefix(p[1..], t, sep);
      assert [p[0]] + (p[1..] + Split(t, sep)[0]) == p + Split(t, sep)[0];
    }
  }

  /** Splitting a join of separator-free pieces gives back the pieces. */
  lemma {:induction false} SplitJoin(parts: seq<string>, sep: char)
    requires |parts| > 0
    requires forall i :: 0 <= i < |parts| ==> sep !in parts[i]
    ensures Split(Join(parts, sep), sep) == parts
  {
    if |parts| == 1 {
      SplitPrefix(parts[0], "", sep);
      assert parts[0] + "" == parts[0];
    } else {
      var tail := parts[1..];
      SplitJoin(tail, sep);
      var t := [sep] + Join(tail, sep);
      assert parts[0] + [sep] + Join(tail, sep) == parts[0] + t;
      SplitPrefix(parts[0], t, sep);
      assert t[0] == sep && t[1..] == Join(tail, sep);
      assert Split(t, sep) == [""] + tail;
      assert parts[0] + "" == parts[0];
      assert parts == [parts[0]] + tail;
    }
  }
}
